=== FILE: README.md ===
# crlfstat: the byte classifier and the statistics fold

crlfstat walks a directory tree and reports how its text files end their lines
(LF, CRLF or both) and indent them (spaces, tabs or both), keeping binary files
apart. This project models the part of `iterate_directory` that does the work
for one file, and proves properties of that model:

- **Byte classifier** (`classifier.dfy`, module `Classifier`). The scan over one
  file's bytes is a state machine. `Step` handles one byte. `Feed` folds `Step`
  over a byte sequence. `Classify` skips a leading UTF-8 byte order mark and
  then scans the rest. The state holds the previous byte (`prevc` in the
  source), an "at line start" switch (`isBOF`), and the flags `hasLFs`,
  `hasCRLFs`, `hasSPACEs` and `hasTABs`. A binary signal byte stops the scan.
- **Reference description** (`reference.dfy`, module `Reference`). This states
  each flag by byte positions instead of a running state:
  - a CRLF is an LF right after a CR;
  - a bare LF is any other LF;
  - an indentation byte is a space or tab in the blank run that follows an LF.

  `ClassifyMatchesReference` proves that the state machine computes exactly
  this. The other properties of the scan are stated in the same module: the
  short-circuit, lone CRs, monotone flags, files without LF, and the byte
  order mark.
- **Chunked reads** (`chunked_read.dfy`, module `ChunkedRead`). The source reads
  the file through a 24-byte buffer and keeps `prevc` and `isBOF` from one read
  to the next. `ScanReads` follows the source's outer loop. `ScanChunk` follows
  its inner loop, and `ScanByte` follows the loop body. `ScanReads` is proved to
  return `Classify` of the concatenated bytes, so chunk boundaries do not
  matter. For example, a CR at the end of one read and an LF at the start of
  the next still make a CRLF. `ReadAndClassify` states that any buffer size of
  at least 4 bytes gives the same verdict.
- **Statistics** (`statistics.dfy`, module `Stats`). This models
  `struct Statistics` as an immutable record. `Merge` applies one file's
  verdict and extension, following the source's `if`/`else if` chains.
- **The walk's per-file loop** (`walk.dfy`, module `Walk`). The files the walk
  visits are given as a list of entries. Each entry is either a file that
  could not be opened, or a file's bytes and extension. `Tally` folds the
  entries into the statistics, and `AnalyzeEntries` is the loop that does it.
  `TallyCounts` proves that each counter equals the number of files in its
  class and that each extension set holds exactly the extensions of those
  files.
- **Examples** (`examples.dfy`). These are concrete files with their verdicts.

Bytes are integers 0..255. The source compares `char` values, and `char` is
signed on the usual platforms, so bytes 0x80..0xFF are negative and are caught by
the `< 9` test. `IsBinarySignal` evaluates the test on that signed value and
proves that the signal bytes are those below 9, 14..31, and above 126. The
same set results if `char` is unsigned, where the `> 126` test catches them.

The first line of a file is never sampled for indentation, because `isBOF`
starts out false. One might expect a file whose first line starts with a tab
and whose second line starts with a space to count as mixed-indent. The code
counts it as space-only (`Examples.FirstLineTabIgnored`). One might also
expect every text file to fall into exactly one line-ending class. In the
code, a text file with no LF falls into none (`Stats.Merge`,
`Reference.NoLineFeedNoFlags`).

## Model

| member | source | states |
|---|---|---|
| Classifier.IsBinarySignal | main.cpp:99-103 | the source's test on the signed char holds exactly for unsigned bytes below 9, 14..31 and above 126 |
| Classifier.AsChar | main.cpp:71 | the signed char value lies in -128..127 and agrees with the byte modulo 256 |
| Classifier.Step | main.cpp:90-112 | one byte stops the scan exactly when it is a binary signal; otherwise it becomes the previous byte and no flag is cleared |
| Classifier.Feed | main.cpp:82-113 | a scan stops exactly when some byte fed is a binary signal; otherwise the previous byte is the last byte fed and flags only grow |
| Classifier.Body | main.cpp:84-89 | the bytes scanned are the file minus a leading EF BB BF, and the whole file when there is no such mark |
| Classifier.Classify | main.cpp:69-116 | a file is binary exactly when a byte after the optional mark is a signal; an empty file is text with no flag set |
| Classifier.FeedAppend | main.cpp:78-113 | scanning two pieces in turn, carrying the state over, equals scanning their concatenation; a stopped scan stays stopped |
| Reference.InIndentStep | main.cpp:90-111 | sampling is armed after a byte exactly when that byte is an LF (bare or CRLF), or a space or tab while armed |
| Reference.Trace | main.cpp:82-113 | after any text prefix, the state machine's previous byte, sampling switch and four flags equal their position-by-position descriptions |
| Reference.ClassifyMatchesReference | main.cpp:69-116 | the classifier's verdict equals the declarative one on every file |
| Reference.TextFlags | main.cpp:90-112 | a text verdict sets hasCRLFs iff some LF follows a CR, hasLFs iff some LF does not, and hasSPACEs or hasTABs iff such a byte lies in the blank run right after an LF |
| Reference.LoneCrSetsNothing | main.cpp:104-112 | a CR followed by something other than LF sets neither line-ending flag |
| Reference.BinaryStopsScan | main.cpp:114-116 | once the scan has stopped on a binary signal, any further bytes leave it stopped |
| Reference.FirstSignalDecides | main.cpp:99-103 | a binary signal anywhere stops the scan, whatever precedes or follows it |
| Reference.FlagsMonotone | main.cpp:72-112 | every flag set after a prefix is still set after any longer prefix |
| Reference.NoLineFeedNoFlags | main.cpp:77-110 | a text file with no LF sets no line-ending and no indentation flag, since line 1 is never sampled |
| Reference.BomSkipped | main.cpp:84-89 | after a byte order mark the rest is scanned from the initial state: the mark never signals binary, an LF right after it is a bare LF, and, when the rest does not itself start with a mark, the verdict equals that of the file without it |
| ChunkedRead.Reads | main.cpp:70-81 | reads through an n-byte buffer deliver full buffers then one short read, and together they are the whole file |
| ChunkedRead.ChunkBytes | main.cpp:84-89 | a read's bytes are scanned whole while prevc is non-zero; otherwise only a leading EF BB BF is dropped |
| ChunkedRead.ChunkStep | main.cpp:84-89 | the bytes a read contributes to the scan are its own bytes, minus the mark only in a first read of a file that starts with one |
| ChunkedRead.ScanByte | main.cpp:90-112 | the loop body stops exactly on a binary signal and otherwise leaves the state `Step` describes |
| ChunkedRead.ScanChunk | main.cpp:80-113 | the inner loop over one read leaves the state of scanning that read's bytes from the carried state, with the mark skipped at the start of a read when prevc is 0 |
| ChunkedRead.NextReadSoFar | main.cpp:78-81 | each read continues the file where the previous one ended, and after the first read at least 4 bytes have been read unless the file has ended |
| ChunkedRead.ReadStops | main.cpp:99-103 | a binary signal found in any read makes the whole file's verdict binary |
| ChunkedRead.ReadContinues | main.cpp:80-113 | after a read without a signal, the carried prevc, isBOF and flags are the scan of every byte read so far, mark excluded |
| ChunkedRead.ScanReads | main.cpp:69-116 | the chunked loop reports the verdict of the concatenated bytes, wherever the chunk boundaries fall (the first read holds at least 4 bytes unless it is the only one) |
| ChunkedRead.ReadAndClassify | main.cpp:70-82 | reading through any buffer of 4 or more bytes, 24 among them, gives the same verdict |
| Stats.Merge | main.cpp:117-151 | every file adds one to totalfiles; a binary file adds to binaryfiles and its extension and nothing else; a text file adds one to at most one line-ending counter and at most one indentation counter, none without an LF or without sampled indentation; only the mixed classes insert the extension, and re-inserting a known extension changes nothing |
| Stats.MergeConsistent | main.cpp:117-151 | merging preserves binaryfiles + lfOnly + crlfOnly + mixedEOLs <= totalfiles, the same for the indentation counters, and the extension sets being no larger than their counters |
| Stats.MergeCommutes | main.cpp:117-151 | merging two files in either order gives the same totals |
| Walk.TallyCounts | main.cpp:52-155 | after a walk every counter is the number of opened files in its class, and each extension set is the set of extensions of those files |
| Walk.TallyConsistent | main.cpp:52-155 | the totals stay consistent along the whole walk |
| Walk.UnopenableIgnored | main.cpp:62-66 | a file that cannot be opened changes no field of the totals |
| Walk.OpenedTotal | main.cpp:151 | totalfiles counts every opened file once |
| Walk.AnalyzeEntries | main.cpp:54-154 | the per-file loop computes the fold, its totals are consistent, and totalfiles is the number of files that opened |
| Examples.NulIsBinary | main.cpp:99-103 | a file holding one NUL byte is binary |
| Examples.CrlfThenLfIsMixed | main.cpp:104-128 | "l1\r\nl2\n" is a mixed line-ending file |
| Examples.FirstLineTabIgnored | main.cpp:77-110 | "\tx\n y" is space-only: the tab on line 1 is not sampled |
| Examples.ShortMarkPrefixIsBinary | main.cpp:84-103 | the one-byte file EF and the two-byte file EF BB hold no whole mark and are binary, since 0xEF is negative as a signed char |
| Examples.BomThenTextIsLfOnly | main.cpp:84-135 | a byte order mark followed by "abc\n" is text with bare LFs only |

## Left out

- `validate_args`, the usage message, and the `fs::is_directory` check (main.cpp:20-35) are argument handling on the filesystem.
- `main`'s report printing and exit codes (main.cpp:157-188) are output formatting.
- Directory recursion (main.cpp:54-58) is left out. The walk is given as the list of entries it visits. Symbolic links and visiting order are left to the filesystem.
- Extension extraction with `fs::path::extension` is left out. The extension is an opaque string.
- The stream mechanics of `ifstream` (`good`, `read`, `gcount`, `eof`) are abstracted. A file either fails to open, or it delivers its bytes as a sequence of reads. A read failure other than end of file, which could make `while (!is.eof())` spin, is not modelled.
- ChunkedRead.ScanReads: requires the first read to hold at least 4 bytes when more reads follow. A 24-byte buffer always meets this. Later reads may be of any length, since by then `prevc` holds a scanned byte, which is never 0, and the mark test fails. With a first read of exactly 3 bytes, a file that starts with the mark twice would have it skipped twice. With a shorter first read, the source's mark check can read past the valid data: it reads `buff[1]` only when the read begins with 0xEF, and `buff[2]` only when it begins with 0xEF 0xBB, because `&&` stops at the first false test.
- When a first read holds fewer than 3 bytes and begins with 0xEF (or 0xEF 0xBB), the source's mark check reads buffer bytes past the valid data, which were never written. The model treats such a read as not holding a mark. With the 24-byte buffer, only two files are affected: the one-byte file EF and the two-byte file EF BB. The model reports both as binary (`Examples.ShortMarkPrefixIsBinary`). The source reports them as text with no flags if the leftover buffer bytes happen to complete the mark. Any other short file, such as "a\n", stops the check at its first byte and gets the exact verdict, and an empty first read never runs the check.
- The counters are C++ `int`. They are modelled as unbounded naturals, so overflow past 2^31 - 1 files is not modelled.
- `Statistics` is passed by reference and mutated in place in the source. The model passes values and returns the updated record, which has the same net effect.
- The error message printed for a file that cannot be opened is left out. Only its effect on the totals (none) is modelled.

=== FILE: chunked_read.dfy ===
/**
 The read loop of `iterate_directory`: the file arrives in chunks, one per
 `read` call, and the scan state (`prevc`, `isBOF` and the flags) is carried
 from chunk to chunk. The method `ScanReads` follows the source's nested loops
 and is proved to report `Classify` of the concatenated bytes, so the verdict
 does not depend on where the chunk boundaries fall.
 */
module ChunkedRead {
  import opened Classifier

  /** The size of the source's read buffer. */
  const ChunkSize := 24

  /**
   The fewest bytes the first read must deliver when more reads follow it.
   With fewer, a byte order mark could be split across the first two reads
   (and missed) or, after a first read of exactly the three mark bytes, be
   skipped a second time. A first read shorter than 3 bytes that begins with
   0xEF (or 0xEF 0xBB) makes the source's mark test read past the valid
   data. Later reads may be of any length: by then `prevc` holds a scanned
   byte, which is never 0, so the mark test fails.
   */
  const MinRead := 4

  /** The bytes of all chunks, in order. */
  function Flatten(chunks: seq<seq<byte>>): seq<byte> {
    if |chunks| == 0 then [] else chunks[0] + Flatten(chunks[1..])
  }

  lemma {:induction false} FlattenAppend(a: seq<seq<byte>>, b: seq<seq<byte>>)
    ensures Flatten(a + b) == Flatten(a) + Flatten(b)
  {
    if |a| == 0 {
      assert a + b == b;
    } else {
      assert (a + b)[1..] == a[1..] + b;
      FlattenAppend(a[1..], b);
    }
  }

  /** A sequence of reads the loop can be given: at least one, and the first holds at least `MinRead` bytes unless it is the only one. */
  predicate WellFormedReads(chunks: seq<seq<byte>>) {
    |chunks| > 0 && (|chunks| > 1 ==> |chunks[0]| >= MinRead)
  }

  /**
   The reads a binary stream delivers with an `n`-byte buffer: full buffers,
   then one short read (empty when the size is a multiple of `n`).
   */
  function Reads(bytes: seq<byte>, n: nat): (chunks: seq<seq<byte>>)
    requires n > 0
    ensures Flatten(chunks) == bytes
    ensures |chunks| > 0 && |chunks[|chunks| - 1]| < n
    ensures forall k :: 0 <= k < |chunks| - 1 ==> |chunks[k]| == n
    decreases |bytes|
  {
    if |bytes| < n then [bytes]
    else
      var rest := Reads(bytes[n..], n);
      assert ([bytes[..n]] + rest)[1..] == rest;
      assert bytes == bytes[..n] + bytes[n..];
      [bytes[..n]] + rest
  }

  /**
   The bytes of one read that the scan looks at: all of them, unless the read
   starts while `prevc` is still 0 and begins with a byte order mark.
   */
  function ChunkBytes(buff: seq<byte>, s: Scan): (r: seq<byte>)
    ensures s.prev != 0 ==> r == buff
    ensures r == buff || (s.prev == 0 && buff == BOM + r)
    ensures HasBom(buff) && s.prev == 0 ==> r == buff[|BOM|..]
  {
    if s.prev == 0 && HasBom(buff) then buff[3..] else buff
  }

  /** The bytes of the file read so far that the scan has looked at. */
  function Scanned(skip: bool, done: seq<byte>): seq<byte> {
    if !skip then done else if |done| >= 3 then done[3..] else []
  }

  /**
   `buff` is the next read after `done`: it continues the file, and either
   it follows at least `MinRead` bytes already read, or it is the first read
   and holds at least `MinRead` bytes itself unless it is the last.
   */
  ghost predicate NextChunk(file: seq<byte>, done: seq<byte>, buff: seq<byte>) {
    && |done + buff| <= |file| && file[..|done + buff|] == done + buff
    && (done != [] ==> |done| >= MinRead)
    && (done == [] ==> |buff| >= MinRead || |done + buff| == |file|)
  }

  /**
   Scanning one more read extends what has been scanned by that read's
   bytes. The byte order mark is recognised in the first read exactly when
   the file starts with one, and never again.
   */
  lemma ChunkStep(file: seq<byte>, done: seq<byte>, buff: seq<byte>, s: Scan)
    requires NextChunk(file, done, buff)
    requires ScannedSoFar(file, done, s)
    ensures Scanned(HasBom(file), done + buff) == Scanned(HasBom(file), done) + ChunkBytes(buff, s)
  {
  }

  /**
   The body of the inner loop for one byte that is not part of a byte order
   mark: sample indentation, stop on a binary signal, record a line ending.
   */
  method ScanByte(b: byte, prevc: byte, isBOF: bool, hasLFs: bool, hasCRLFs: bool, hasSPACEs: bool, hasTABs: bool)
    returns (bin: bool, prevc': byte, isBOF': bool, hasLFs': bool, hasCRLFs': bool, hasSPACEs': bool, hasTABs': bool)
    ensures bin <==> IsBinarySignal(b)
    ensures !bin ==> Step(Scan(prevc, isBOF, Flags(hasLFs, hasCRLFs, hasSPACEs, hasTABs)), b)
                     == Reading(Scan(prevc', isBOF', Flags(hasLFs', hasCRLFs', hasSPACEs', hasTABs')))
  {
    prevc', isBOF', hasLFs', hasCRLFs', hasSPACEs', hasTABs' := prevc, isBOF, hasLFs, hasCRLFs, hasSPACEs, hasTABs;
    if isBOF' {
      if b == SPACE {
        hasSPACEs' := true;
      } else if b == TAB {
        hasTABs' := true;
      } else {
        isBOF' := false;
      }
    }
    if IsBinarySignal(b) {
      return true, prevc', isBOF', hasLFs', hasCRLFs', hasSPACEs', hasTABs';
    }
    if b == LF {
      if prevc' == CR {
        hasCRLFs' := true;
      } else {
        hasLFs' := true;
      }
      // in the source this assignment is outside the `else`, despite its indentation
      isBOF' := true;
    }
    prevc' := b;
    bin := false;
  }

  /** Reading chunk `c` moves it from the unread part of the file to the read part. */
  lemma NextRead(chunks: seq<seq<byte>>, c: nat)
    requires c < |chunks|
    ensures Flatten(chunks[..c + 1]) == Flatten(chunks[..c]) + chunks[c]
    ensures Flatten(chunks[c..]) == chunks[c] + Flatten(chunks[c + 1..])
  {
    assert chunks[c..][1..] == chunks[c + 1..];
    assert chunks[..c + 1] == chunks[..c] + [chunks[c]];
    FlattenAppend(chunks[..c], [chunks[c]]);
  }

  /** A stopped scan of a prefix of the file stops the scan of the whole file. */
  lemma ScannedPrefix(skip: bool, file: seq<byte>, prefix: seq<byte>)
    requires |prefix| <= |file| && file[..|prefix|] == prefix
    requires skip ==> |prefix| == 0 || |prefix| >= 3
    requires skip == HasBom(file)
    requires Feed(Start, Scanned(skip, prefix)) == FoundBinary
    ensures Classify(file) == Binary
  {
  }

  /**
   The inner loop: one read's bytes, scanned from state `s`. The source's
   local variables are unpacked from `s` and packed into `t`.
   */
  method ScanChunk(buff: seq<byte>, s: Scan) returns (bin: bool, t: Scan)
    ensures Feed(s, ChunkBytes(buff, s)) == if bin then FoundBinary else Reading(t)
  {
    var prevc, isBOF := s.prev, s.atLineStart;
    var hasLFs, hasCRLFs, hasSPACEs, hasTABs := s.flags.hasLFs, s.flags.hasCRLFs, s.flags.hasSPACEs, s.flags.hasTABs;
    ghost var off := if s.prev == 0 && HasBom(buff) then 3 else 0;
    ghost var rest := ChunkBytes(buff, s);
    assert rest == buff[off..];
    bin := false;
    var length := |buff|;
    var i := 0;
    while i < length
      invariant 0 <= i <= length
      invariant i == 0 || off <= i
      invariant i == 0 ==> prevc == s.prev
      invariant rest == buff[off..]
      invariant Feed(s, buff[off..if i < off then off else i]) == Reading(Scan(prevc, isBOF, Flags(hasLFs, hasCRLFs, hasSPACEs, hasTABs)))
    {
      if i == 0 && prevc == 0 && length >= 3 && buff[0] == 0xEF && buff[1] == 0xBB && buff[2] == 0xBF {
        // UTF-8 byte order mark: the source's `i += 2; continue;` plus the loop increment.
        // A read shorter than 3 bytes is taken as holding no mark.
        i := i + 3;
        continue;
      }
      assert off <= i;
      assert buff[off..i + 1][..i - off] == buff[off..i];
      var stop;
      stop, prevc, isBOF, hasLFs, hasCRLFs, hasSPACEs, hasTABs := ScanByte(buff[i], prevc, isBOF, hasLFs, hasCRLFs, hasSPACEs, hasTABs);
      if stop {
        assert rest == buff[off..i + 1] + buff[i + 1..];
        FeedAppend(s, buff[off..i + 1], buff[i + 1..]);
        bin := true;
        break;
      }
      i := i + 1;
    }
    t := Scan(prevc, isBOF, Flags(hasLFs, hasCRLFs, hasSPACEs, hasTABs));
    if !bin {
      assert buff[off..i] == rest;
    }
  }

  /**
   Where the loop stands between reads: the first `c` chunks, `done`, have
   been read, and the rest of the file is in the chunks still to come.
   */
  ghost predicate ReadSoFar(chunks: seq<seq<byte>>, file: seq<byte>, c: int, done: seq<byte>) {
    && 0 <= c <= |chunks|
    && done == Flatten(chunks[..c])
    && file == done + Flatten(chunks[c..])
    && (0 < c < |chunks| ==> |done| >= MinRead)
    && (HasBom(file) ==> |done| == 0 || |done| >= 3)
  }

  /** `s` is the state after scanning the bytes of `done` that the scan looks at. */
  ghost predicate ScannedSoFar(file: seq<byte>, done: seq<byte>, s: Scan) {
    var seen := Scanned(HasBom(file), done);
    && (|seen| > 0 ==> s.prev != 0)
    && Feed(Start, seen) == Reading(s)
  }

  /** Chunk `c` is the next read, and after it the loop stands at chunk `c + 1`. */
  lemma NextReadSoFar(chunks: seq<seq<byte>>, file: seq<byte>, c: int, done: seq<byte>)
    requires WellFormedReads(chunks)
    requires ReadSoFar(chunks, file, c, done) && c < |chunks|
    ensures NextChunk(file, done, chunks[c])
    ensures ReadSoFar(chunks, file, c + 1, done + chunks[c])
  {
    NextRead(chunks, c);
    var buff := chunks[c];
    assert file == (done + buff) + Flatten(chunks[c + 1..]);
    if c + 1 == |chunks| {
      assert chunks[c + 1..] == [];
    }
  }

  /** A read that ends in a binary signal makes the whole file binary. */
  lemma ReadStops(file: seq<byte>, done: seq<byte>, buff: seq<byte>, s: Scan)
    requires NextChunk(file, done, buff) && ScannedSoFar(file, done, s)
    requires HasBom(file) ==> |done + buff| == 0 || |done + buff| >= 3
    requires Feed(s, ChunkBytes(buff, s)) == FoundBinary
    ensures Classify(file) == Binary
  {
    var skip := HasBom(file);
    ChunkStep(file, done, buff, s);
    FeedAppend(Start, Scanned(skip, done), ChunkBytes(buff, s));
    ScannedPrefix(skip, file, done + buff);
  }

  /** A read without a binary signal extends the scanned bytes by the read's bytes. */
  lemma ReadContinues(file: seq<byte>, done: seq<byte>, buff: seq<byte>, s: Scan, t: Scan)
    requires NextChunk(file, done, buff) && ScannedSoFar(file, done, s)
    requires Feed(s, ChunkBytes(buff, s)) == Reading(t)
    ensures ScannedSoFar(file, done + buff, t)
  {
    var incoming := ChunkBytes(buff, s);
    ChunkStep(file, done, buff, s);
    FeedAppend(Start, Scanned(HasBom(file), done), incoming);
    if |incoming| > 0 {
      assert !IsBinarySignal(incoming[|incoming| - 1]);
    }
  }

  /** After the last read, the state is the one `Classify` reports. */
  lemma AllRead(chunks: seq<seq<byte>>, file: seq<byte>, done: seq<byte>, s: Scan)
    requires ReadSoFar(chunks, file, |chunks|, done) && ScannedSoFar(file, done, s)
    ensures Classify(file) == Text(s.flags)
  {
    assert chunks[|chunks|..] == [];
    assert Body(file) == Scanned(HasBom(file), done);
  }

  /**
   The outer loop: one read after another until the stream is exhausted or a
   binary signal stops it. `prevc` and `isBOF` survive from one read to the
   next, so a CR ending one chunk and an LF starting the next form a CRLF.
   */
  method ScanReads(chunks: seq<seq<byte>>) returns (v: Verdict)
    requires WellFormedReads(chunks)
    ensures v == Classify(Flatten(chunks))
  {
    ghost var file := Flatten(chunks);
    var s := Start;
    var bin := false;
    ghost var done: seq<byte> := [];
    var c := 0;
    while c < |chunks|
      invariant ReadSoFar(chunks, file, c, done)
      invariant ScannedSoFar(file, done, s)
      invariant !bin
    {
      NextReadSoFar(chunks, file, c, done);
      var t;
      bin, t := ScanChunk(chunks[c], s);
      if bin {
        ReadStops(file, done, chunks[c], s);
        break;
      }
      ReadContinues(file, done, chunks[c], s, t);
      s := t;
      done := done + chunks[c];
      c := c + 1;
    }
    if bin {
      v := Binary;
    } else {
      AllRead(chunks, file, done, s);
      v := Text(s.flags);
    }
  }

  /**
   Reads a file through an `n`-byte buffer and classifies it. The verdict is
   the same for every buffer size of at least `MinRead` bytes, the source's 24
   among them.
   */
  method ReadAndClassify(bytes: seq<byte>, n: nat) returns (v: Verdict)
    requires n >= MinRead
    ensures v == Classify(bytes)
  {
    v := ScanReads(Reads(bytes, n));
  }
}

=== FILE: classifier.dfy ===
/**
 The per-file byte classifier of crlfstat, as a pure state machine.

 A file is a sequence of bytes. After an optional UTF-8 byte order mark, every
 byte is fed to `Step`, which either stops the scan (the byte is a binary
 signal) or updates a small `Scan` record: the previous byte, whether the
 leading whitespace of the current line is being sampled, and four flags.
 `Classify` turns a whole file into a `Verdict`.
 */
module Classifier {

  /** One byte of a file, read as an unsigned value. */
  type byte = b: int | 0 <= b < 256

  const TAB: byte := 9
  const LF: byte := 10
  const CR: byte := 13
  const SPACE: byte := 32

  /** The UTF-8 byte order mark. */
  const BOM: seq<byte> := [0xEF, 0xBB, 0xBF]

  /** The file starts with a complete UTF-8 byte order mark. */
  predicate HasBom(bytes: seq<byte>) {
    |bytes| >= 3 && bytes[0] == 0xEF && bytes[1] == 0xBB && bytes[2] == 0xBF
  }

  /** The value the source compares: byte `b` held in a signed 8-bit `char`. */
  function AsChar(b: byte): (c: int)
    ensures -128 <= c < 128
    ensures (c - b) % 256 == 0
  {
    if b < 128 then b else b - 256
  }

  /**
   The source's binary test, evaluated on the signed `char`. Bytes 0x80..0xFF
   are negative there and fall under `< 9`; read unsigned, the signal bytes are
   exactly those outside tab..CR and the printable ASCII range.
   */
  predicate IsBinarySignal(b: byte)
    ensures IsBinarySignal(b) <==> b < 9 || (13 < b < 32) || 126 < b
  {
    var c := AsChar(b);
    c < 9 || (c > 13 && c < 32) || c > 126
  }

  /** A byte that may appear in a line's leading indentation. */
  predicate IsBlank(b: byte) {
    b == SPACE || b == TAB
  }

  /** The four result flags of the source's scan loop. */
  datatype Flags = Flags(hasLFs: bool, hasCRLFs: bool, hasSPACEs: bool, hasTABs: bool)

  const NoFlags := Flags(false, false, false, false)

  /** Every flag set in `f` is also set in `g`. */
  predicate FlagsLe(f: Flags, g: Flags) {
    && (f.hasLFs ==> g.hasLFs)
    && (f.hasCRLFs ==> g.hasCRLFs)
    && (f.hasSPACEs ==> g.hasSPACEs)
    && (f.hasTABs ==> g.hasTABs)
  }

  /**
   The state carried from byte to byte (and from read to read): `prev` is the
   previous byte (the source's `prevc`), `atLineStart` says the leading
   whitespace of the current line is being sampled (the source's `isBOF`).
   */
  datatype Scan = Scan(prev: byte, atLineStart: bool, flags: Flags)

  /** The state before the first byte: no previous byte, sampling off. */
  const Start := Scan(0, false, NoFlags)

  /** A scan in progress, or one stopped by a binary signal. */
  datatype Progress = Reading(scan: Scan) | FoundBinary

  /** What the classifier reports for one file. */
  datatype Verdict = Binary | Text(flags: Flags)

  /**
   One byte of the scan loop. Indentation is sampled first, then the binary
   test may stop the scan, then an LF sets the CRLF or bare-LF flag by looking
   at the previous byte and re-arms sampling, whichever kind of LF it is.
   */
  function Step(s: Scan, b: byte): (p: Progress)
    ensures p.FoundBinary? <==> IsBinarySignal(b)
    ensures p.Reading? ==> p.scan.prev == b && FlagsLe(s.flags, p.scan.flags)
  {
    var sampled :=
      if !s.atLineStart then s.flags
      else if b == SPACE then s.flags.(hasSPACEs := true)
      else if b == TAB then s.flags.(hasTABs := true)
      else s.flags;
    var armed := s.atLineStart && IsBlank(b);
    if IsBinarySignal(b) then FoundBinary
    else if b == LF then
      var eol := if s.prev == CR then sampled.(hasCRLFs := true) else sampled.(hasLFs := true);
      Reading(Scan(b, true, eol))
    else Reading(Scan(b, armed, sampled))
  }

  /** Feeds `bs` to the scan, in order, from state `s`. */
  function Feed(s: Scan, bs: seq<byte>): (p: Progress)
    ensures p.FoundBinary? <==> exists i :: 0 <= i < |bs| && IsBinarySignal(bs[i])
    ensures p.Reading? && |bs| > 0 ==> p.scan.prev == bs[|bs| - 1]
    ensures p.Reading? ==> FlagsLe(s.flags, p.scan.flags)
    decreases |bs|
  {
    if |bs| == 0 then Reading(s)
    else
      var init := bs[..|bs| - 1];
      assert forall i :: 0 <= i < |init| ==> init[i] == bs[i];
      match Feed(s, init)
      case FoundBinary => FoundBinary
      case Reading(t) => Step(t, bs[|bs| - 1])
  }

  /** Continues a scan that has not stopped; a stopped scan stays stopped. */
  function Resume(p: Progress, bs: seq<byte>): Progress {
    match p
    case FoundBinary => FoundBinary
    case Reading(t) => Feed(t, bs)
  }

  /** The bytes the scan loop looks at: the file without its byte order mark. */
  function Body(bytes: seq<byte>): (body: seq<byte>)
    ensures HasBom(bytes) ==> bytes == BOM + body
    ensures !HasBom(bytes) ==> body == bytes
  {
    if HasBom(bytes) then bytes[3..] else bytes
  }

  /** The verdict a finished scan reports. */
  function Finish(p: Progress): Verdict {
    match p
    case FoundBinary => Binary
    case Reading(s) => Text(s.flags)
  }

  /** The classification of one whole file. */
  function Classify(bytes: seq<byte>): (v: Verdict)
    ensures v.Binary? <==> exists i :: 0 <= i < |Body(bytes)| && IsBinarySignal(Body(bytes)[i])
    ensures |bytes| == 0 ==> v == Text(NoFlags)
  {
    Finish(Feed(Start, Body(bytes)))
  }

  /** Feeding two pieces one after the other is feeding their concatenation. */
  lemma {:induction false} FeedAppend(s: Scan, a: seq<byte>, b: seq<byte>)
    ensures Feed(s, a + b) == Resume(Feed(s, a), b)
    decreases |b|
  {
    if |b| == 0 {
      assert a + b == a;
    } else {
      var init := b[..|b| - 1];
      assert (a + b)[..|a + b| - 1] == a + init;
      assert (a + b)[|a + b| - 1] == b[|b| - 1];
      FeedAppend(s, a, init);
    }
  }
}

=== FILE: examples.dfy ===
/**
 Concrete files and the verdicts the classifier gives them.
 */
module Examples {
  import opened Classifier
  import opened Stats

  /** A file made of one NUL byte is binary. */
  lemma NulIsBinary()
    ensures Classify([0]) == Binary
  {
  }

  /** "l1\r\nl2\n": one CRLF and one bare LF make the file mixed. */
  lemma CrlfThenLfIsMixed()
    ensures var bytes: seq<byte> := [108, 49, CR, LF, 108, 50, LF];
      IsMixedEol(Classify(bytes))
  {
    var bytes: seq<byte> := [108, 49, CR, LF, 108, 50, LF];
    var s := Scan(49, false, NoFlags);
    assert Feed(Start, bytes[..2]) == Reading(s) by {
      assert bytes[..2][..1] == [108];
      assert [108][..0] == [];
    }
    var t := Scan(LF, true, NoFlags.(hasCRLFs := true));
    assert Feed(Start, bytes[..4]) == Reading(t) by {
      assert bytes[..4][..3] == bytes[..3];
      assert bytes[..3][..2] == bytes[..2];
    }
    var u := Scan(50, false, t.flags);
    assert Feed(Start, bytes[..6]) == Reading(u) by {
      assert bytes[..6][..5] == bytes[..5];
      assert bytes[..5][..4] == bytes[..4];
    }
    assert bytes[..7][..6] == bytes[..6];
    assert bytes[..7] == bytes;
  }

  /**
   A tab opening the first line is not sampled: "\tx\n y" reports only space
   indentation, because sampling starts after the first LF.
   */
  lemma FirstLineTabIgnored()
    ensures var bytes: seq<byte> := [TAB, 120, LF, SPACE, 121];
      Classify(bytes) == Text(Flags(true, false, true, false))
  {
    var bytes: seq<byte> := [TAB, 120, LF, SPACE, 121];
    assert Feed(Start, bytes[..1]) == Reading(Scan(TAB, false, NoFlags)) by {
      assert bytes[..1][..0] == [];
    }
    assert Feed(Start, bytes[..2]) == Reading(Scan(120, false, NoFlags)) by {
      assert bytes[..2][..1] == bytes[..1];
    }
    assert Feed(Start, bytes[..3]) == Reading(Scan(LF, true, NoFlags.(hasLFs := true))) by {
      assert bytes[..3][..2] == bytes[..2];
    }
    assert Feed(Start, bytes[..4]) == Reading(Scan(SPACE, true, Flags(true, false, true, false))) by {
      assert bytes[..4][..3] == bytes[..3];
    }
    assert bytes[..5][..4] == bytes[..4];
    assert bytes[..5] == bytes;
  }

  /**
   Files too short to hold a whole mark: EF and EF BB are binary, since 0xEF is
   a binary signal as a signed char.
   */
  lemma ShortMarkPrefixIsBinary()
    ensures Classify([0xEF]) == Binary
    ensures Classify([0xEF, 0xBB]) == Binary
  {
    assert !HasBom([0xEF]) && !HasBom([0xEF, 0xBB]);
    assert IsBinarySignal(0xEF);
    assert [0xEF, 0xBB][..1] == [0xEF];
  }

  /** A byte order mark followed by "abc\n" is a text file with bare LFs only. */
  lemma BomThenTextIsLfOnly()
    ensures var bytes: seq<byte> := BOM + [97, 98, 99, LF];
      IsLfOnly(Classify(bytes)) && Classify(bytes) == Text(NoFlags.(hasLFs := true))
  {
    var rest: seq<byte> := [97, 98, 99, LF];
    var bytes := BOM + rest;
    assert HasBom(bytes) && bytes[3..] == rest;
    assert Feed(Start, rest[..1]) == Reading(Scan(97, false, NoFlags)) by {
      assert rest[..1][..0] == [];
    }
    assert Feed(Start, rest[..2]) == Reading(Scan(98, false, NoFlags)) by {
      assert rest[..2][..1] == rest[..1];
    }
    assert Feed(Start, rest[..3]) == Reading(Scan(99, false, NoFlags)) by {
      assert rest[..3][..2] == rest[..2];
    }
    assert rest[..4][..3] == rest[..3];
    assert rest[..4] == rest;
  }
}

=== FILE: reference.dfy ===
/**
 A declarative description of what the classifier reports, stated over byte
 positions instead of a running state, and the proof that the state machine of
 `Classifier` computes it. The properties of the scan (binary short-circuit,
 CRLF versus bare LF, indentation sampling, byte order mark skip, monotone
 flags) are stated here.
 */
module Reference {
  import opened Classifier

  /** Byte `i` is an LF directly preceded by a CR. */
  predicate CrlfAt(bs: seq<byte>, i: int) {
    0 < i < |bs| && bs[i - 1] == CR && bs[i] == LF
  }

  /** Byte `i` is an LF not preceded by a CR (an LF at the start counts). */
  predicate BareLfAt(bs: seq<byte>, i: int) {
    0 <= i < |bs| && bs[i] == LF && (i == 0 || bs[i - 1] != CR)
  }

  /** Byte `j` is an LF and every byte strictly between `j` and `i` is a space or a tab. */
  predicate LineStartAt(bs: seq<byte>, j: int, i: int) {
    0 <= j < i <= |bs| && bs[j] == LF && forall k :: j < k < i ==> IsBlank(bs[k])
  }

  /**
   Position `i` lies in the leading whitespace run of a line that follows an
   LF. The first line of the file has no preceding LF, so it never qualifies.
   */
  ghost predicate InIndent(bs: seq<byte>, i: int) {
    exists j :: LineStartAt(bs, j, i)
  }

  ghost predicate SpaceIndentAt(bs: seq<byte>, i: int) {
    0 <= i < |bs| && bs[i] == SPACE && InIndent(bs, i)
  }

  ghost predicate TabIndentAt(bs: seq<byte>, i: int) {
    0 <= i < |bs| && bs[i] == TAB && InIndent(bs, i)
  }

  /** The flags that the first `n` bytes of `bs` justify. */
  ghost function FlagsUpTo(bs: seq<byte>, n: int): Flags {
    Flags(
      exists i :: 0 <= i < n && BareLfAt(bs, i),
      exists i :: 0 <= i < n && CrlfAt(bs, i),
      exists i :: 0 <= i < n && SpaceIndentAt(bs, i),
      exists i :: 0 <= i < n && TabIndentAt(bs, i))
  }

  ghost predicate HasBinarySignal(bs: seq<byte>) {
    exists i :: 0 <= i < |bs| && IsBinarySignal(bs[i])
  }

  /** The verdict described position by position. */
  ghost function ReferenceVerdict(bytes: seq<byte>): Verdict {
    var body := Body(bytes);
    if HasBinarySignal(body) then Binary else Text(FlagsUpTo(body, |body|))
  }

  /** Sampling is armed after byte `i - 1` exactly when that byte is an LF, or a blank byte while armed. */
  lemma InIndentStep(bs: seq<byte>, i: int)
    requires 0 < i <= |bs|
    ensures InIndent(bs, i) <==> bs[i - 1] == LF || (IsBlank(bs[i - 1]) && InIndent(bs, i - 1))
  {
    if bs[i - 1] == LF {
      assert LineStartAt(bs, i - 1, i);
    } else if IsBlank(bs[i - 1]) && InIndent(bs, i - 1) {
      var j :| LineStartAt(bs, j, i - 1);
      assert LineStartAt(bs, j, i);
    }
    if InIndent(bs, i) {
      var j :| LineStartAt(bs, j, i);
      if j < i - 1 {
        assert LineStartAt(bs, j, i - 1);
      }
    }
  }

  /** The state after the first `n` bytes of a text prefix is the one the reference describes. */
  lemma {:induction false} Trace(bs: seq<byte>, n: nat)
    requires n <= |bs|
    requires forall i :: 0 <= i < n ==> !IsBinarySignal(bs[i])
    ensures Feed(Start, bs[..n]) == Reading(Scan(if n == 0 then 0 else bs[n - 1], InIndent(bs, n), FlagsUpTo(bs, n)))
  {
    if n == 0 {
      assert !InIndent(bs, 0);
      assert FlagsUpTo(bs, 0) == NoFlags;
    } else {
      var m := n - 1;
      Trace(bs, m);
      assert bs[..n][..m] == bs[..m];
      var s := Scan(if m == 0 then 0 else bs[m - 1], InIndent(bs, m), FlagsUpTo(bs, m));
      assert Feed(Start, bs[..n]) == Step(s, bs[m]);
      InIndentStep(bs, n);
      var f, g := FlagsUpTo(bs, m), FlagsUpTo(bs, n);
      assert g.hasLFs <==> f.hasLFs || BareLfAt(bs, m);
      assert g.hasCRLFs <==> f.hasCRLFs || CrlfAt(bs, m);
      assert g.hasSPACEs <==> f.hasSPACEs || SpaceIndentAt(bs, m);
      assert g.hasTABs <==> f.hasTABs || TabIndentAt(bs, m);
    }
  }

  /** The state machine computes the reference verdict on every file. */
  lemma ClassifyMatchesReference(bytes: seq<byte>)
    ensures Classify(bytes) == ReferenceVerdict(bytes)
  {
    var body := Body(bytes);
    if !HasBinarySignal(body) {
      Trace(body, |body|);
      assert body[..|body|] == body;
    }
  }

  /**
   A text verdict's flags, one by one: a CRLF flag for an LF right after a
   CR, a bare-LF flag for any other LF, an indentation flag for a space or tab
   in the leading run of a line after an LF.
   */
  lemma TextFlags(bytes: seq<byte>)
    requires Classify(bytes).Text?
    ensures var f, body := Classify(bytes).flags, Body(bytes);
      && (f.hasCRLFs <==> exists i :: CrlfAt(body, i))
      && (f.hasLFs <==> exists i :: BareLfAt(body, i))
      && (f.hasSPACEs <==> exists i :: SpaceIndentAt(body, i))
      && (f.hasTABs <==> exists i :: TabIndentAt(body, i))
  {
    ClassifyMatchesReference(bytes);
  }

  /** A CR that is not followed by an LF sets no line-ending flag, whatever the state. */
  lemma LoneCrSetsNothing(s: Scan, b: byte)
    requires b != LF
    requires Feed(s, [CR, b]).Reading?
    ensures Feed(s, [CR, b]).scan.flags.hasLFs == s.flags.hasLFs
    ensures Feed(s, [CR, b]).scan.flags.hasCRLFs == s.flags.hasCRLFs
  {
    assert [CR, b][..1] == [CR];
    assert [CR][..0] == [];
    assert Feed(s, [CR]) == Step(s, CR);
    var t := Feed(s, [CR]).scan;
    assert Feed(s, [CR, b]) == Step(t, b);
  }

  /** Once the scan has stopped on a binary signal, nothing after it matters. */
  lemma BinaryStopsScan(s: Scan, a: seq<byte>, b: seq<byte>)
    requires Feed(s, a) == FoundBinary
    ensures Feed(s, a + b) == FoundBinary
  {
    FeedAppend(s, a, b);
  }

  /** The first binary signal ends the scan, whatever follows it. */
  lemma FirstSignalDecides(s: Scan, a: seq<byte>, b: byte, rest: seq<byte>)
    requires IsBinarySignal(b)
    ensures Feed(s, a + [b] + rest) == FoundBinary
  {
    assert (a + [b] + rest)[|a|] == b;
  }

  /** Flags never go from set to clear: a longer text prefix keeps every flag of a shorter one. */
  lemma FlagsMonotone(s: Scan, a: seq<byte>, b: seq<byte>)
    requires Feed(s, a).Reading? && Feed(s, a + b).Reading?
    ensures FlagsLe(Feed(s, a).scan.flags, Feed(s, a + b).scan.flags)
  {
    FeedAppend(s, a, b);
  }

  /** A text file without any LF (the first line is never sampled) reports no flag at all. */
  lemma NoLineFeedNoFlags(bytes: seq<byte>)
    requires Classify(bytes).Text?
    requires forall i :: 0 <= i < |Body(bytes)| ==> Body(bytes)[i] != LF
    ensures Classify(bytes) == Text(NoFlags)
  {
    ClassifyMatchesReference(bytes);
    var body := Body(bytes);
    forall i | 0 <= i <= |body|
      ensures !InIndent(body, i)
    {
    }
  }

  /**
   The byte order mark is skipped: it never counts as a binary signal, the
   byte after it has no CR before it, and the rest is classified as if the
   file started there.
   */
  lemma BomSkipped(rest: seq<byte>)
    ensures Classify(BOM + rest) == Finish(Feed(Start, rest))
    ensures Classify(BOM + rest).Binary? <==> HasBinarySignal(rest)
    ensures !HasBom(rest) ==> Classify(BOM + rest) == Classify(rest)
    ensures |rest| > 0 && rest[0] == LF && Classify(BOM + rest).Text? ==> Classify(BOM + rest).flags.hasLFs
  {
  }
}

=== FILE: statistics.dfy ===
/**
 The running totals of crlfstat and the rule that folds one file's verdict
 into them.
 */
module Stats {
  import opened Classifier

  /** The totals the walk accumulates (the source's `struct Statistics`). */
  datatype Statistics = Statistics(
    totalfiles: nat,
    binaryfiles: nat,
    binaryExtensions: set<string>,
    lfOnlyFiles: nat,
    crlfOnlyFiles: nat,
    mixedEOLs: nat,
    tabOnlyFiles: nat,
    spaceOnlyFiles: nat,
    mixedIndents: nat,
    mixedEOLsExts: set<string>,
    mixedIndentsExts: set<string>)

  /** The totals before any file has been seen. */
  const Empty := Statistics(0, 0, {}, 0, 0, 0, 0, 0, 0, {}, {})

  /** Every classified file, whatever its verdict. */
  predicate AnyFile(v: Verdict) {
    true
  }

  predicate IsBinaryFile(v: Verdict) {
    v.Binary?
  }

  /** The line-ending class of a verdict: text files that saw both kinds of LF are mixed. */
  predicate IsMixedEol(v: Verdict) {
    v.Text? && v.flags.hasCRLFs && v.flags.hasLFs
  }

  predicate IsCrlfOnly(v: Verdict) {
    v.Text? && v.flags.hasCRLFs && !v.flags.hasLFs
  }

  predicate IsLfOnly(v: Verdict) {
    v.Text? && !v.flags.hasCRLFs && v.flags.hasLFs
  }

  /** The indentation class of a verdict: text files whose lines started with both a space and a tab are mixed. */
  predicate IsMixedIndent(v: Verdict) {
    v.Text? && v.flags.hasSPACEs && v.flags.hasTABs
  }

  predicate IsSpaceOnly(v: Verdict) {
    v.Text? && v.flags.hasSPACEs && !v.flags.hasTABs
  }

  predicate IsTabOnly(v: Verdict) {
    v.Text? && !v.flags.hasSPACEs && v.flags.hasTABs
  }

  /** Files counted in some line-ending class. */
  function EolCounted(st: Statistics): nat {
    st.lfOnlyFiles + st.crlfOnlyFiles + st.mixedEOLs
  }

  /** Files counted in some indentation class. */
  function IndentCounted(st: Statistics): nat {
    st.spaceOnlyFiles + st.tabOnlyFiles + st.mixedIndents
  }

  /**
   The totals hang together: no file is counted both binary and in a class,
   or in two classes of one kind, and each extension set names no more
   extensions than its counter has files.
   */
  predicate Consistent(st: Statistics) {
    && st.binaryfiles + EolCounted(st) <= st.totalfiles
    && st.binaryfiles + IndentCounted(st) <= st.totalfiles
    && |st.binaryExtensions| <= st.binaryfiles
    && |st.mixedEOLsExts| <= st.mixedEOLs
    && |st.mixedIndentsExts| <= st.mixedIndents
  }

  /**
   Folds one opened file's verdict, with the file's extension, into the
   totals: every file counts once; a binary file counts as binary and nothing
   else; a text file counts in at most one line-ending class and at most one
   indentation class, and only the mixed classes record the extension.
   */
  function Merge(st: Statistics, v: Verdict, ext: string): (r: Statistics)
    ensures r.totalfiles == st.totalfiles + 1
    ensures v.Binary? ==> r == st.(totalfiles := st.totalfiles + 1,
                                   binaryfiles := st.binaryfiles + 1,
                                   binaryExtensions := st.binaryExtensions + {ext})
    ensures v.Text? ==> r.binaryfiles == st.binaryfiles && r.binaryExtensions == st.binaryExtensions
    ensures r.mixedEOLs == st.mixedEOLs + (if IsMixedEol(v) then 1 else 0)
    ensures r.crlfOnlyFiles == st.crlfOnlyFiles + (if IsCrlfOnly(v) then 1 else 0)
    ensures r.lfOnlyFiles == st.lfOnlyFiles + (if IsLfOnly(v) then 1 else 0)
    ensures r.mixedIndents == st.mixedIndents + (if IsMixedIndent(v) then 1 else 0)
    ensures r.spaceOnlyFiles == st.spaceOnlyFiles + (if IsSpaceOnly(v) then 1 else 0)
    ensures r.tabOnlyFiles == st.tabOnlyFiles + (if IsTabOnly(v) then 1 else 0)
    ensures EolCounted(r) == EolCounted(st) + (if v.Text? && (v.flags.hasLFs || v.flags.hasCRLFs) then 1 else 0)
    ensures IndentCounted(r) == IndentCounted(st) + (if v.Text? && (v.flags.hasSPACEs || v.flags.hasTABs) then 1 else 0)
    ensures r.mixedEOLsExts == if IsMixedEol(v) then st.mixedEOLsExts + {ext} else st.mixedEOLsExts
    ensures r.mixedIndentsExts == if IsMixedIndent(v) then st.mixedIndentsExts + {ext} else st.mixedIndentsExts
    ensures ext in st.mixedEOLsExts ==> r.mixedEOLsExts == st.mixedEOLsExts
    ensures ext in st.mixedIndentsExts ==> r.mixedIndentsExts == st.mixedIndentsExts
  {
    var counted := st.(totalfiles := st.totalfiles + 1);
    match v
    case Binary =>
      counted.(binaryfiles := st.binaryfiles + 1, binaryExtensions := st.binaryExtensions + {ext})
    case Text(f) =>
      var eol :=
        if f.hasCRLFs && f.hasLFs then
          counted.(mixedEOLs := st.mixedEOLs + 1, mixedEOLsExts := st.mixedEOLsExts + {ext})
        else if f.hasCRLFs then counted.(crlfOnlyFiles := st.crlfOnlyFiles + 1)
        else if f.hasLFs then counted.(lfOnlyFiles := st.lfOnlyFiles + 1)
        else counted;
      if f.hasSPACEs && f.hasTABs then
        eol.(mixedIndents := st.mixedIndents + 1, mixedIndentsExts := st.mixedIndentsExts + {ext})
      else if f.hasSPACEs then eol.(spaceOnlyFiles := st.spaceOnlyFiles + 1)
      else if f.hasTABs then eol.(tabOnlyFiles := st.tabOnlyFiles + 1)
      else eol
  }

  /** Merging keeps the totals consistent. */
  lemma MergeConsistent(st: Statistics, v: Verdict, ext: string)
    requires Consistent(st)
    ensures Consistent(Merge(st, v, ext))
  {
  }

  /** The order in which two files are merged does not matter. */
  lemma MergeCommutes(st: Statistics, v: Verdict, x: string, w: Verdict, y: string)
    ensures Merge(Merge(st, v, x), w, y) == Merge(Merge(st, w, y), v, x)
  {
  }
}

=== FILE: walk.dfy ===
/**
 The per-file part of `iterate_directory`: every regular file found by the
 walk is opened, read, classified and merged into the totals. The directory
 recursion itself is not modelled; the walk is given as the list of entries
 it visits, in visiting order.
 */
module Walk {
  import opened Classifier
  import opened ChunkedRead
  import opened Stats

  /** A regular file met by the walk: either it could not be opened, or its bytes and extension. */
  datatype Entry = Unopenable | Opened(bytes: seq<byte>, ext: string)

  /** The totals after visiting `es`, in order, starting from `st`. */
  function Tally(st: Statistics, es: seq<Entry>): Statistics
    decreases |es|
  {
    if |es| == 0 then st
    else
      var before := Tally(st, es[..|es| - 1]);
      match es[|es| - 1]
      case Unopenable => before
      case Opened(bytes, ext) => Merge(before, Classify(bytes), ext)
  }

  /** The entry was opened and its verdict satisfies `p`. */
  predicate Selected(e: Entry, p: Verdict -> bool) {
    e.Opened? && p(Classify(e.bytes))
  }

  /** The positions of the entries `Selected` by `p`. */
  function Positions(es: seq<Entry>, p: Verdict -> bool): set<int> {
    set i | 0 <= i < |es| && Selected(es[i], p)
  }

  /** The number of opened entries whose verdict satisfies `p`. */
  function CountWhere(es: seq<Entry>, p: Verdict -> bool): nat {
    |Positions(es, p)|
  }

  /** The extensions of opened entries whose verdict satisfies `p`. */
  function ExtsWhere(es: seq<Entry>, p: Verdict -> bool): set<string> {
    set i | i in Positions(es, p) :: es[i].ext
  }

  /** Only the opened entries of `es`, in order. */
  function OpenedOnly(es: seq<Entry>): (r: seq<Entry>)
    ensures forall i :: 0 <= i < |r| ==> r[i].Opened?
    ensures |r| <= |es|
  {
    if |es| == 0 then []
    else if es[|es| - 1].Opened? then OpenedOnly(es[..|es| - 1]) + [es[|es| - 1]]
    else OpenedOnly(es[..|es| - 1])
  }

  /** Extending the entries by one adds at most the last position to the selected ones. */
  lemma PositionsSnoc(es: seq<Entry>, p: Verdict -> bool)
    requires |es| > 0
    ensures var n := |es| - 1;
      Positions(es, p) == Positions(es[..n], p) + (if Selected(es[n], p) then {n} else {})
  {
  }

  lemma CountSnoc(es: seq<Entry>, p: Verdict -> bool)
    requires |es| > 0
    ensures var n := |es| - 1;
      CountWhere(es, p) == CountWhere(es[..n], p) + (if Selected(es[n], p) then 1 else 0)
  {
    var n := |es| - 1;
    PositionsSnoc(es, p);
    assert n !in Positions(es[..n], p);
  }

  lemma ExtsSnoc(es: seq<Entry>, p: Verdict -> bool)
    requires |es| > 0
    ensures var n := |es| - 1;
      ExtsWhere(es, p) == ExtsWhere(es[..n], p) + (if Selected(es[n], p) then {es[n].ext} else {})
  {
  }

  /**
   Every counter of the totals counts the opened files of its class, and
   every extension set holds the extensions of the files of its class.
   Unopenable files are counted nowhere.
   */
  lemma {:induction false} TallyCounts(es: seq<Entry>)
    ensures var t := Tally(Empty, es);
      && t.totalfiles == CountWhere(es, AnyFile)
      && t.binaryfiles == CountWhere(es, IsBinaryFile)
      && t.binaryExtensions == ExtsWhere(es, IsBinaryFile)
      && t.mixedEOLs == CountWhere(es, IsMixedEol)
      && t.crlfOnlyFiles == CountWhere(es, IsCrlfOnly)
      && t.lfOnlyFiles == CountWhere(es, IsLfOnly)
      && t.mixedEOLsExts == ExtsWhere(es, IsMixedEol)
      && t.mixedIndents == CountWhere(es, IsMixedIndent)
      && t.spaceOnlyFiles == CountWhere(es, IsSpaceOnly)
      && t.tabOnlyFiles == CountWhere(es, IsTabOnly)
      && t.mixedIndentsExts == ExtsWhere(es, IsMixedIndent)
  {
    if |es| > 0 {
      TallyCounts(es[..|es| - 1]);
      CountSnoc(es, AnyFile);
      CountSnoc(es, IsBinaryFile);
      ExtsSnoc(es, IsBinaryFile);
      CountSnoc(es, IsMixedEol);
      ExtsSnoc(es, IsMixedEol);
      CountSnoc(es, IsCrlfOnly);
      CountSnoc(es, IsLfOnly);
      CountSnoc(es, IsMixedIndent);
      ExtsSnoc(es, IsMixedIndent);
      CountSnoc(es, IsSpaceOnly);
      CountSnoc(es, IsTabOnly);
    }
  }

  /** The totals stay consistent along the whole walk. */
  lemma {:induction false} TallyConsistent(st: Statistics, es: seq<Entry>)
    requires Consistent(st)
    ensures Consistent(Tally(st, es))
  {
    if |es| > 0 {
      TallyConsistent(st, es[..|es| - 1]);
      var last := es[|es| - 1];
      if last.Opened? {
        MergeConsistent(Tally(st, es[..|es| - 1]), Classify(last.bytes), last.ext);
      }
    }
  }

  /** A file that cannot be opened changes no field of the totals. */
  lemma {:induction false} UnopenableIgnored(st: Statistics, es: seq<Entry>)
    ensures Tally(st, es) == Tally(st, OpenedOnly(es))
  {
    if |es| > 0 {
      var init := es[..|es| - 1];
      UnopenableIgnored(st, init);
      var r := OpenedOnly(init);
      if es[|es| - 1].Opened? {
        assert (r + [es[|es| - 1]])[..|r|] == r;
      }
    }
  }

  /**
   The walk's per-file loop: open, read through the 24-byte buffer, classify,
   merge. An entry that cannot be opened is reported by the source and
   skipped here.
   */
  method AnalyzeEntries(es: seq<Entry>) returns (st: Statistics)
    ensures st == Tally(Empty, es)
    ensures Consistent(st)
    ensures st.totalfiles == |OpenedOnly(es)|
  {
    st := Empty;
    var i := 0;
    while i < |es|
      invariant 0 <= i <= |es|
      invariant st == Tally(Empty, es[..i])
    {
      assert es[..i + 1][..i] == es[..i];
      match es[i] {
        case Unopenable =>
        case Opened(bytes, ext) =>
          var v := ReadAndClassify(bytes, ChunkSize);
          st := Merge(st, v, ext);
      }
      i := i + 1;
    }
    assert i == |es| && es[..|es|] == es;
    TallyConsistent(Empty, es);
    UnopenableIgnored(Empty, es);
    OpenedTotal(OpenedOnly(es));
  }

  /** On opened entries alone, the file count is the number of entries. */
  lemma {:induction false} OpenedTotal(es: seq<Entry>)
    requires forall i :: 0 <= i < |es| ==> es[i].Opened?
    ensures Tally(Empty, es).totalfiles == |es|
  {
    if |es| > 0 {
      OpenedTotal(es[..|es| - 1]);
    }
  }
}
